=== FILE: README.md ===
# subfinder's subtitle searcher, modelled in Dafny

This project models `subfinder/subsearcher.py`, the part of subfinder that finds subtitle
download links for a video file. It covers four pieces:

- **The provider registry.** `registered_subsearchers` is a process-wide dictionary from a name
  to a provider class. `register_subsearcher` writes to it and `get_subsearcher` reads it. The
  `register` decorator binds `ShooterSubSearcher` under its own name and under `'default'`.
  The model is the class `Registry.SubSearcherRegistry`, whose field `entries`, a `map`, the registration
  methods update in place.
- **Capability checks and argument defaults.** `_check_languages` and `_check_exts` reject the
  first language or extension a provider does not declare. `search_subs` first turns `None`
  into the default and a lone string into a one-element list. These are `Providers` and the
  head of `Shooter.Search`.
- **The search.** `search_subs` fingerprints the video, posts one query per language, and
  normalises the decoded answers into descriptors. Extensions are lowered, filtered to the
  requested ones and deduplicated per language, with the first file entry winning. The loops
  are the methods `Shooter.QueryAll`, `Normaliser.NormaliseLanguage`, `Normaliser.Normalise`
  and `Shooter.SearchSubs`. Each is proved equal to a specification function (`Queries`,
  `Pick`, `NormaliseAll`, `Search`), and the lemmas state what those functions guarantee.
- **File names and fingerprints.** `_gen_subname` builds `<dir>/<stem>.<language>.<ext>`.
  `PosixPath` models the `os.path` functions it uses. `_compute_video_hash` is the method
  `Fingerprint.ComputeVideoHash`. It reads four 4096-byte windows at fixed offsets and joins
  their MD5 digests with `;`.

Some things the program does not compute itself, so the model takes them as parameters:

- The video file is its bytes, `seq<bv8>`.
- MD5 is a function `digest` from bytes to 32 lower-case hexadecimal digits.
- The HTTP session and JSON decoding are a function `query`. It maps the form fields posted for
  one language to the decoded answer list, or to the text of the exception that the post or
  the decoding raised.
- `SearchSubs` and `QueryAll` also return `sent`, the requests posted in order. This lets
  contracts say when no request is made at all.

The docstring of `BaseSubSearcher.search_subs` lists a `'format'` key in each descriptor. The
code emits `'ext'` instead (subfinder/subsearcher.py:159), and the model follows the code.

A language requested twice is queried twice. Its entry in the result dictionary keeps its
first position and takes the second answer. Since `query` is a function, both answers are
equal, so the output has no duplicates.

## Model

| member | source | states |
|---|---|---|
| Registry.SubSearcherRegistry.constructor | subfinder/subsearcher.py:9 | The registry starts empty. |
| Registry.SubSearcherRegistry.GetSubSearcher | subfinder/subsearcher.py:21-22 | Returns the class bound to the name, or the caller's default when the name is unbound. It reads the registry and changes nothing. |
| Registry.SubSearcherRegistry.RegisterSubSearcher | subfinder/subsearcher.py:12-18 | Succeeds exactly when the class is a BaseSubSearcher. On success the name is bound to the class, replacing any earlier binding, and lookups of the name then return it. On failure it reports ValueError for the class and leaves the registry unchanged. Every other name keeps its binding or its absence. |
| Registry.SubSearcherRegistry.Register | subfinder/subsearcher.py:25-33 | Registers the class under the given name, or under its own class name when none is given. Returns the class itself. Fails, leaving the registry unchanged, for a class that is not a BaseSubSearcher. |
| Registry.SubSearcherRegistry.DefineShooterSubSearcher | subfinder/subsearcher.py:92-94 | The two decorators bind ShooterSubSearcher under 'default' and then under 'ShooterSubSearcher'. Both lookups then return it. |
| Providers.IsSubSearcher | subfinder/subsearcher.py:16 | The `issubclass(subsearcher_cls, BaseSubSearcher)` test: a class passes when it is BaseSubSearcher itself or names it among its ancestors. |
| Providers.SubclassTest | subfinder/subsearcher.py:16 | BaseSubSearcher itself and ShooterSubSearcher pass the subclass test; a class deriving only from `object` fails it. |
| Providers.FirstUnsupported | subfinder/subsearcher.py:79-90 | Finds the first item missing from the supported list. It finds none exactly when every item is supported, and every item before the one found is supported. |
| Providers.CheckLanguages | subfinder/subsearcher.py:79-83 | Passes exactly when every language is supported. Otherwise it raises LanguageError naming the provider and the first unsupported language. |
| Providers.CheckExts | subfinder/subsearcher.py:85-90 | Passes exactly when every extension is supported. Otherwise it raises ExtError naming the provider and the first unsupported extension. |
| PosixPath.Split | subfinder/subsearcher.py:169 | `os.path.split`: the tail follows the last '/'; the head precedes it, with trailing slashes removed unless it is all slashes. |
| PosixPath.SplitTailHasNoSep | subfinder/subsearcher.py:169 | The tail of a split holds no '/', and the head is empty, ends in a non-slash, or is all slashes. |
| PosixPath.Basename | subfinder/subsearcher.py:128 | `os.path.basename`: the tail of the split, the `pathinfo` field posted and the name InvalidFileError reports. |
| PosixPath.SplitExt | subfinder/subsearcher.py:170 | `os.path.splitext`: the extension starts at the last '.' after the last '/', unless only dots precede that '.' in the base name. |
| PosixPath.Join | subfinder/subsearcher.py:175 | Two-component `os.path.join`: an absolute second component replaces the first; otherwise one '/' is inserted unless the first is empty or ends in '/'. |
| PosixPath.JoinEnds | subfinder/subsearcher.py:175 | A join ends with the second component whole. An absolute second component is the whole result; otherwise the first component is kept whole at the front. |
| PosixPath.Stem | subfinder/subsearcher.py:169-170 | The stem `_gen_subname` keeps: the first part of `os.path.splitext` of the video's base name. |
| PosixPath.GenSubname | subfinder/subsearcher.py:165-176 | `_gen_subname`: the video's directory joined with its stem, '.', the language, '.', the extension. SplitGenSubname and GenSubnameOf state what this yields. |
| PosixPath.SplitGenSubname | subfinder/subsearcher.py:165-176 | The subtitle name sits in the video's own directory. Its base name is the video's stem, '.', the language, '.', the extension (for a language and extension free of '/'). |
| PosixPath.GenSubnameOf | subfinder/subsearcher.py:165-176 | For the video `<dir>/<stem>.<x>`, the subtitle name is exactly `<dir>/<stem>.<language>.<ext>`. |
| PosixPath.SubnameCollision | subfinder/subsearcher.py:165-168 | Two videos in one directory that share a stem get the same subtitle name, whatever their own extensions. This is the conflict the TODO leaves open. |
| PosixPath.SplitExtParts | subfinder/subsearcher.py:170 | Stem and extension concatenate back to the base name. The extension is empty, or one '.' followed by characters that are neither '.' nor '/'. |
| Fingerprint.SeekPositions | subfinder/subsearcher.py:191-194 | There are four offsets, and each leaves a full 4096-byte window before the end of a file of at least 12288 bytes. |
| Fingerprint.ReadWindow | subfinder/subsearcher.py:196-197 | A read returns at most 4096 bytes. When 4096 bytes remain, it returns exactly the window at the offset. |
| Fingerprint.JoinWith | subfinder/subsearcher.py:200 | `';'.join(hash_result)`: the parts with the separator between consecutive ones. SplitJoin, JoinCount and JoinLength state its properties. |
| Fingerprint.VideoHash | subfinder/subsearcher.py:179-200 | The fingerprint as a function of the file bytes: InvalidFileError for a file under 12288 bytes, otherwise the digests of the four windows joined with ';'. SizeGuard and FingerprintShape state its properties. |
| Fingerprint.ComputeVideoHash | subfinder/subsearcher.py:179-200 | The loop over the seek positions computes VideoHash: InvalidFileError for a small file, otherwise the four window digests in seek order joined with ';'. |
| Fingerprint.PathIndependent | subfinder/subsearcher.py:185-200 | The fingerprint depends only on the file's bytes: two paths to byte-identical files of at least 12288 bytes get the same fingerprint. |
| Fingerprint.SizeGuard | subfinder/subsearcher.py:187-189 | The fingerprint fails exactly for files shorter than 12288 bytes, with InvalidFileError naming the video's base name. |
| Fingerprint.WindowsAreFull | subfinder/subsearcher.py:191-197 | The offsets are 4096, T//3*2, T//3 and T-8192, in that order, and each read is a full 4096-byte window. |
| Fingerprint.FingerprintShape | subfinder/subsearcher.py:195-200 | A fingerprint has 131 characters and exactly three ';'. Splitting it at ';' gives back the digests of the four windows in offset order. |
| Fingerprint.SplitJoin | subfinder/subsearcher.py:200 | Splitting a ';'-join recovers the parts when no part contains ';'. |
| Fingerprint.JoinCount | subfinder/subsearcher.py:200 | A join of n separator-free parts holds n-1 separators. |
| Fingerprint.JoinLength | subfinder/subsearcher.py:200 | A join of n parts of width w has n*w + n-1 characters. |
| Normaliser.Lower | subfinder/subsearcher.py:152 | Lowering keeps the length and lowers each ASCII letter in place. |
| Normaliser.LowerIdempotent | subfinder/subsearcher.py:152 | A lowered extension is already lower case. |
| Normaliser.FirstWithExt | subfinder/subsearcher.py:150-154 | Finds the first file entry whose extension lowers to the given one, or reports that none does. |
| Normaliser.Flatten | subfinder/subsearcher.py:146-150 | The file entries of one language's answers in the order the two loops visit them: each answer's `Files` in turn. |
| Normaliser.Descriptor | subfinder/subsearcher.py:155-160 | The descriptor appended for a file entry: its link, the language, the `_gen_subname` name and the lowered extension under the key `ext`. |
| Normaliser.Pick | subfinder/subsearcher.py:145-161 | One language's walk over its file entries: emit a descriptor for an entry whose lowered extension is requested and not yet emitted, then record that extension. PickValid and PickFirstWins state its properties. |
| Normaliser.NormaliseAll | subfinder/subsearcher.py:143-162 | The whole output: each language's Pick with a fresh set of emitted extensions, concatenated in dictionary order. NormaliseAllValid, NormaliseFirstWins and NormaliseAllGrouped state its properties. |
| Normaliser.NormaliseLanguage | subfinder/subsearcher.py:144-161 | The loops over one language's answers, with a fresh set of emitted extensions, emit exactly Pick of that language's file entries. |
| Normaliser.Normalise | subfinder/subsearcher.py:143-162 | The loop over the result dictionary emits exactly NormaliseAll: each language's descriptors, in dictionary order. |
| Normaliser.PickValid | subfinder/subsearcher.py:150-161 | Every descriptor emitted for a language names that language and a requested, lower-case extension not emitted before. Its subtitle name is the one _gen_subname gives. |
| Normaliser.PickFirstWins | subfinder/subsearcher.py:145-161 | For each extension, one language emits exactly one descriptor when the extension is requested, not yet emitted and present; it links to the first such file entry. Otherwise it emits none. |
| Normaliser.NormaliseAllValid | subfinder/subsearcher.py:143-162 | Every output descriptor comes from a queried language and names a requested, lower-case extension, with its _gen_subname name. |
| Normaliser.NormaliseAllPerLanguage | subfinder/subsearcher.py:143-162 | Restricted to one language, the output is exactly that language's own descriptors. |
| Normaliser.NormaliseFirstWins | subfinder/subsearcher.py:143-162 | For each (language, extension), the output holds at most one descriptor. There is one exactly when the extension is requested and the language's answers list a file of it, and it carries the link of the first such file in response order. |
| Normaliser.NormaliseAllGrouped | subfinder/subsearcher.py:143-162 | The output is grouped by language in dictionary order: no descriptor follows one of a language that comes later. |
| Shooter.RequestedLanguages | subfinder/subsearcher.py:115-118 | The languages searched: `None` gives the first supported language, a lone string a one-element list, a list itself. |
| Shooter.RequestedExts | subfinder/subsearcher.py:121-124 | The extensions searched: `None` gives every supported extension, a lone string a one-element list, a list itself. |
| Shooter.RequestFor | subfinder/subsearcher.py:129-138 | The post made for one language: to API_URL, with the fingerprint, the base name, 'json' and that language. |
| Shooter.Put | subfinder/subsearcher.py:139 | Assignment to the result dictionary: a new key is appended last with its value; an existing key keeps its place. With distinct keys, only that key's value changes. |
| Shooter.PutKeys | subfinder/subsearcher.py:139 | After the assignment, the keys are the old keys plus the language. |
| Shooter.PutDistinct | subfinder/subsearcher.py:139 | The assignment keeps the dictionary's keys distinct. |
| Shooter.Queries | subfinder/subsearcher.py:134-141 | The query loop as a function: each language's answer is assigned into the dictionary in turn, and the first failing request aborts with SearchingSubinfoError. QueriesSucceed, QueriesBuild and QueriesFail state its properties. |
| Shooter.QueryAll | subfinder/subsearcher.py:134-141 | The query loop computes Queries. It posts the requests for the languages in order, each carrying the fingerprint, the base name, 'json' and the language. It stops after the first failure and reports it as SearchingSubinfoError with that failure's text. It posts one request per language when all succeed. |
| Shooter.QueriesSucceed | subfinder/subsearcher.py:135-141 | The query loop succeeds exactly when every language's request succeeds. |
| Shooter.QueriesBuild | subfinder/subsearcher.py:134-139 | A successful loop builds a dictionary whose distinct keys are exactly the requested languages, each holding the answer to its own request. |
| Shooter.QueriesFail | subfinder/subsearcher.py:140-141 | A failed loop reports the cause of the first failing request; every earlier request succeeded. |
| Shooter.Search | subfinder/subsearcher.py:107-162 | `search_subs` as a function: defaults, the language check, the extension check, the fingerprint, the queries and the normaliser, each failure ending the search. The Search lemmas below state its properties. |
| Shooter.SearchSubs | subfinder/subsearcher.py:107-162 | search_subs computes Search. No request is posted when a language or an extension is rejected or the file is too small. Otherwise the requests follow the requested languages and carry the fingerprint and base name. A successful search posts one request per requested language. |
| Shooter.ArgumentDefaults | subfinder/subsearcher.py:115-124 | `languages=None` becomes ['Chn'] and `exts=None` becomes ['ass', 'srt']; a lone string becomes a one-element list. |
| Shooter.ValidationPrecedesIO | subfinder/subsearcher.py:114-127 | A rejected language or extension fails the search the same way whatever the file, MD5 or the service. A rejected language is reported before a rejected extension. |
| Shooter.SearchWithinCapabilities | subfinder/subsearcher.py:107-162 | Every descriptor of a successful search names a requested and supported language and a requested, supported, lower-case extension, with its _gen_subname name. |
| Shooter.SearchFirstWins | subfinder/subsearcher.py:143-161 | For a requested language and any extension, a successful search returns one descriptor when the extension is requested and the language's answer has a file of it, linking to the first such file. Otherwise it returns none. |
| Shooter.EnglishScenario | subfinder/subsearcher.py:107-162 | A worked search: 'Eng' with the default extensions, answered by an "SRT" entry and an "ass" entry, yields an 'srt' descriptor and then an 'ass' descriptor. |

## Left out

- The HTTP session, `session.post` and `res.json()` are the `query` parameter. The model keeps the rule that any failure aborts the whole search. `query` is total, so a post that never returns is not modelled; `session.post` is called without a timeout and can hang.
- MD5 is the `digest` parameter; its internals are not modelled. The file read (`open`, `os.fstat`, `seek`, `read`) is the byte sequence `file`. The OSError that `open` raises for a missing, unreadable or directory path is not modelled. In the source it surfaces after validation and before any post.
- `os.path.abspath` is not modelled. It depends on the working directory, and it also normalises the path: it removes `.` and `..` components, repeated `/` and a trailing `/`. The video path is taken as already absolute and normalised, with no `.` or `..` component, no repeated `/` and no trailing `/`. For a path such as `/v/./m.mkv` or `/v/m.mkv/` the model's subtitle names (and possibly the posted base name) differ from the source's, which first rewrites it to `/v/m.mkv`.
- `str.lower()` is modelled on ASCII letters only. Other Unicode case mappings are not modelled.
- Class identity and `issubclass` are modelled by name: a provider class is a value carrying its name, its ancestors' names and its two capability lists. An argument that is not a class cannot be expressed, so the TypeError that `issubclass` raises for it (instead of the ValueError) is not modelled.
- Arguments that are neither `None`, a `str` nor a list (a tuple or another iterable) are not modelled.
- Malformed answers are not modelled. These are a response that is not a list, an item without `Desc`, `Delay`, `Files`, `Ext` or `Link`, or an `Ext` that is not a string. In the source they raise KeyError, TypeError or AttributeError (from `.lower()`) in the normalising loop.
- The result dictionary is taken to keep insertion order, as Python dictionaries do from version 3.7 on. Under Python 2 (whose `__metaclass__` idiom the source also carries) `result.items()` iterates in an arbitrary order, and the grouping order stated by NormaliseAllGrouped would not hold.
- The curried form `register(name=...)` returning a decorator is modelled only through its application: `Register` with an optional name, and `DefineShooterSubSearcher`.
- The `payload` dictionary reused across queries is modelled as a fresh `Request` per language. The two agree, because each post sends the current field values.
- `Desc` and `Delay` are carried in `SubInfo` but are not used, as in the source.
- The `ABCMeta` and `abstractmethod` machinery and `ShooterSubSearcher.__init__` are not modelled; neither affects the results.
- The text of the exception messages is not modelled: each error carries the values the message would format.
- `os.path.split`, `splitext` and `join` are modelled after their POSIX versions with two components. Other platforms' separators are not modelled.
- subfinder/exceptions.py is not part of this model; its exception classes are the constructors of `Exceptions.Error`.

=== FILE: exceptions.dfy ===
/**
 * The error kinds raised by subsearcher.py. The exception classes themselves live in
 * subfinder/exceptions.py, which is not part of this model; each constructor carries the
 * value the raising site formats into its message.
 */
module Exceptions {

  datatype Error =
    /** ValueError from register_subsearcher: the class is not a BaseSubSearcher. */
    | NotSubSearcher(cls: string)
    /** LanguageError from _check_languages: provider name and the rejected language. */
    | LanguageError(provider: string, language: string)
    /** ExtError from _check_exts: provider name and the rejected extension. */
    | ExtError(provider: string, ext: string)
    /** InvalidFileError from _compute_video_hash: base name of the video that is too small. */
    | InvalidFileError(video: string)
    /** SearchingSubinfoError from search_subs: the text of the underlying query failure. */
    | SearchingSubinfoError(cause: string)
}

=== FILE: fingerprint.dfy ===
/**
 * _compute_video_hash: the fingerprint of a video is the MD5 digests of four 4096-byte windows,
 * taken at fixed offsets and joined with ';'.
 *
 * The file is its bytes; MD5 is the `digest` parameter, which yields 32 hexadecimal digits.
 */
module Fingerprint {
  import opened Wrappers
  import opened Exceptions
  import PosixPath

  type byte = bv8

  const WINDOW: nat := 4096
  /** The smallest file that can be fingerprinted: 8192 + 4096 bytes. */
  const MIN_SIZE: nat := 8192 + 4096
  const SEPARATOR: char := ';'

  predicate IsHexDigit(c: char)
  {
    '0' <= c <= '9' || 'a' <= c <= 'f'
  }

  /** What hexdigest() returns for an MD5 digest. */
  type HexDigest = s: string | |s| == 32 && forall i | 0 <= i < |s| :: IsHexDigit(s[i])
    witness "00000000000000000000000000000000"

  /** The four seek offsets, in the order they are read. */
  function SeekPositions(totalSize: nat): (r: seq<nat>)
    requires totalSize >= MIN_SIZE
    ensures |r| == 4
    ensures forall i | 0 <= i < 4 :: r[i] + WINDOW <= totalSize
  {
    [4096, totalSize / 3 * 2, totalSize / 3, totalSize - 8192]
  }

  /** fp.seek(pos) then fp.read(4096): at most 4096 bytes, fewer when the file ends first. */
  function ReadWindow(file: seq<byte>, pos: nat): (data: seq<byte>)
    ensures |data| <= WINDOW
    ensures pos + WINDOW <= |file| ==> data == file[pos..pos + WINDOW]
  {
    if pos >= |file| then []
    else if pos + WINDOW <= |file| then file[pos..pos + WINDOW]
    else file[pos..]
  }

  /** str.join: the parts with `sep` between consecutive ones. */
  function JoinWith(sep: char, parts: seq<string>): string
  {
    if parts == [] then ""
    else if |parts| == 1 then parts[0]
    else parts[0] + [sep] + JoinWith(sep, parts[1..])
  }

  /** str.split(sep): the pieces between occurrences of `sep`. */
  function SplitOn(sep: char, s: string): (r: seq<string>)
    ensures |r| >= 1
  {
    if s == [] then [""]
    else
      var rest := SplitOn(sep, s[1..]);
      if s[0] == sep then [""] + rest else [[s[0]] + rest[0]] + rest[1..]
  }

  /** The digests of the windows at the four seek positions, in seek order. */
  function WindowDigests(file: seq<byte>, digest: seq<byte> -> HexDigest): (r: seq<HexDigest>)
    requires |file| >= MIN_SIZE
    ensures |r| == 4
  {
    var p := SeekPositions(|file|);
    [digest(ReadWindow(file, p[0])), digest(ReadWindow(file, p[1])),
     digest(ReadWindow(file, p[2])), digest(ReadWindow(file, p[3]))]
  }

  /** The fingerprint as a function of the file bytes. */
  function VideoHash(videofile: string, file: seq<byte>, digest: seq<byte> -> HexDigest): Result<string, Error>
  {
    if |file| < MIN_SIZE then Failure(InvalidFileError(PosixPath.Basename(videofile)))
    else Success(JoinWith(SEPARATOR, WindowDigests(file, digest)))
  }

  /** _compute_video_hash: fills the seek positions, then reads and digests each window in turn. */
  method ComputeVideoHash(videofile: string, file: seq<byte>, digest: seq<byte> -> HexDigest)
    returns (r: Result<string, Error>)
    ensures r == VideoHash(videofile, file, digest)
  {
    var seekPositions := new nat[4];
    var hashResult: seq<string> := [];
    var totalSize := |file|;
    if totalSize < 8192 + 4096 {
      return Failure(InvalidFileError(PosixPath.Basename(videofile)));
    }
    seekPositions[0] := 4096;
    seekPositions[1] := totalSize / 3 * 2;
    seekPositions[2] := totalSize / 3;
    seekPositions[3] := totalSize - 8192;
    for i := 0 to 4
      invariant seekPositions[..] == SeekPositions(totalSize)
      invariant hashResult == WindowDigests(file, digest)[..i]
    {
      var data := ReadWindow(file, seekPositions[i]);
      hashResult := hashResult + [digest(data)];
    }
    assert hashResult == WindowDigests(file, digest);
    r := Success(JoinWith(SEPARATOR, hashResult));
  }

  /** A file of at least MIN_SIZE bytes yields four full windows, at the documented offsets. */
  lemma WindowsAreFull(file: seq<byte>)
    requires |file| >= MIN_SIZE
    ensures SeekPositions(|file|) == [4096, |file| / 3 * 2, |file| / 3, |file| - 8192]
    ensures forall i | 0 <= i < 4 ::
      |ReadWindow(file, SeekPositions(|file|)[i])| == WINDOW
  {
  }

  /** The size guard: the fingerprint fails exactly for files shorter than 12288 bytes. */
  lemma {:induction false} SizeGuard(videofile: string, file: seq<byte>, digest: seq<byte> -> HexDigest)
    ensures VideoHash(videofile, file, digest).Failure? <==> |file| < 12288
    ensures VideoHash(videofile, file, digest).Failure? ==>
      VideoHash(videofile, file, digest).error == InvalidFileError(PosixPath.Basename(videofile))
  {
  }

  /** A join of parts that do not contain `sep` holds |parts| - 1 separators. */
  lemma {:induction false} JoinCount(sep: char, parts: seq<string>)
    requires parts != []
    requires forall i | 0 <= i < |parts| :: sep !in parts[i]
    ensures multiset(JoinWith(sep, parts))[sep] == |parts| - 1
  {
    if |parts| > 1 {
      JoinCount(sep, parts[1..]);
      assert multiset(parts[0] + [sep] + JoinWith(sep, parts[1..])) ==
        multiset(parts[0]) + multiset{sep} + multiset(JoinWith(sep, parts[1..]));
    }
  }

  /** The length of a join: the parts plus one separator between each pair. */
  lemma {:induction false} JoinLength(sep: char, parts: seq<string>, width: nat)
    requires parts != []
    requires forall i | 0 <= i < |parts| :: |parts[i]| == width
    ensures |JoinWith(sep, parts)| == |parts| * width + |parts| - 1
  {
    if |parts| > 1 {
      JoinLength(sep, parts[1..], width);
    }
  }

  /** Splitting `p + sep + q`, where `p` holds no `sep`, yields `p` first. */
  lemma {:induction false} SplitOnPrefix(sep: char, p: string, q: string)
    requires sep !in p
    ensures SplitOn(sep, p + [sep] + q) == [p] + SplitOn(sep, q)
  {
    if p == [] {
      assert p + [sep] + q == [sep] + q;
      assert ([sep] + q)[1..] == q;
    } else {
      assert (p + [sep] + q)[1..] == p[1..] + [sep] + q;
      SplitOnPrefix(sep, p[1..], q);
      assert [p[0]] + p[1..] == p;
    }
  }

  /** A string free of `sep` splits into itself. */
  lemma {:induction false} SplitOnWhole(sep: char, p: string)
    requires sep !in p
    ensures SplitOn(sep, p) == [p]
  {
    if p != [] {
      SplitOnWhole(sep, p[1..]);
      assert [p[0]] + p[1..] == p;
    }
  }

  /** Splitting a join gives the parts back, when no part contains the separator. */
  lemma {:induction false} SplitJoin(sep: char, parts: seq<string>)
    requires parts != []
    requires forall i | 0 <= i < |parts| :: sep !in parts[i]
    ensures SplitOn(sep, JoinWith(sep, parts)) == parts
  {
    if |parts| == 1 {
      SplitOnWhole(sep, parts[0]);
    } else {
      SplitJoin(sep, parts[1..]);
      SplitOnPrefix(sep, parts[0], JoinWith(sep, parts[1..]));
    }
  }

  /** The fingerprint depends on the file's bytes only: byte-identical files under two paths agree. */
  lemma PathIndependent(videofile1: string, videofile2: string, file: seq<byte>, digest: seq<byte> -> HexDigest)
    requires |file| >= MIN_SIZE
    ensures VideoHash(videofile1, file, digest) == VideoHash(videofile2, file, digest)
  {
  }

  /**
   * A fingerprint is 131 characters: four 32-digit digests, exactly three ';' between them, and
   * splitting it at ';' recovers the digests of the four windows in offset order.
   */
  lemma FingerprintShape(videofile: string, file: seq<byte>, digest: seq<byte> -> HexDigest)
    requires |file| >= MIN_SIZE
    ensures VideoHash(videofile, file, digest).Success?
    ensures |VideoHash(videofile, file, digest).value| == 4 * 32 + 3
    ensures multiset(VideoHash(videofile, file, digest).value)[SEPARATOR] == 3
    ensures SplitOn(SEPARATOR, VideoHash(videofile, file, digest).value) ==
      [ digest(file[4096..4096 + WINDOW]),
        digest(file[|file| / 3 * 2..|file| / 3 * 2 + WINDOW]),
        digest(file[|file| / 3..|file| / 3 + WINDOW]),
        digest(file[|file| - 8192..|file| - 8192 + WINDOW]) ]
  {
    var parts := WindowDigests(file, digest);
    assert forall i | 0 <= i < 4 :: SEPARATOR !in parts[i] && |parts[i]| == 32;
    JoinCount(SEPARATOR, parts);
    JoinLength(SEPARATOR, parts, 32);
    SplitJoin(SEPARATOR, parts);
  }
}

=== FILE: normaliser.dfy ===
/**
 * The result-normalisation loop of ShooterSubSearcher.search_subs: the decoded responses of each
 * queried language become subtitle descriptors, at most one per (language, extension), the
 * first file entry of an extension in response order winning.
 */
module Normaliser {
  import opened Wrappers
  import PosixPath

  /** One entry of a response's `Files` list. */
  datatype FileItem = FileItem(ext: string, link: string)

  /** One decoded response item: `Desc`, `Delay` and `Files`. */
  datatype SubInfo = SubInfo(desc: string, delay: int, files: seq<FileItem>)

  /** A descriptor as the code emits it: keys 'link', 'language', 'subname' and 'ext'. */
  datatype SubtitleInfo = SubtitleInfo(link: string, language: string, subname: string, ext: string)

  /** The `result` dictionary: languages in insertion order, each with its decoded responses. */
  type Responses = seq<(string, seq<SubInfo>)>

  function LowerChar(c: char): char
  {
    if 'A' <= c <= 'Z' then (c as int - 'A' as int + 'a' as int) as char else c
  }

  /** str.lower() on ASCII letters. */
  function Lower(s: string): (r: string)
    ensures |r| == |s|
    ensures forall i | 0 <= i < |s| :: r[i] == LowerChar(s[i])
  {
    seq(|s|, i requires 0 <= i < |s| => LowerChar(s[i]))
  }

  /** Lowering twice is lowering once: every emitted extension is already lower case. */
  lemma LowerIdempotent(s: string)
    ensures Lower(Lower(s)) == Lower(s)
  {
  }

  /** The file entries of a language's responses, in response order. */
  function Flatten(subinfos: seq<SubInfo>): seq<FileItem>
  {
    if subinfos == [] then [] else subinfos[0].files + Flatten(subinfos[1..])
  }

  /** The descriptor emitted for a file entry of `language` whose extension lowers to `ext`. */
  function Descriptor(videofile: string, language: string, ext: string, link: string): SubtitleInfo
  {
    SubtitleInfo(link, language, PosixPath.GenSubname(videofile, language, ext), ext)
  }

  /**
   * The descriptors emitted for one language while walking `items`, with `extSet` holding the
   * extensions already emitted for that language.
   */
  function Pick(videofile: string, language: string, items: seq<FileItem>, exts: seq<string>, extSet: set<string>)
    : seq<SubtitleInfo>
  {
    if items == [] then []
    else
      var ext := Lower(items[0].ext);
      if ext in exts && ext !in extSet then
        [Descriptor(videofile, language, ext, items[0].link)]
          + Pick(videofile, language, items[1..], exts, extSet + {ext})
      else
        Pick(videofile, language, items[1..], exts, extSet)
  }

  /** The whole output: each language's descriptors, languages in dictionary order. */
  function NormaliseAll(videofile: string, result: Responses, exts: seq<string>): seq<SubtitleInfo>
  {
    if result == [] then []
    else Pick(videofile, result[0].0, Flatten(result[0].1), exts, {}) + NormaliseAll(videofile, result[1..], exts)
  }

  /**
   * The body of the outer loop of search_subs for one language: a fresh `ext_set`, then every
   * file entry of every response in order.
   */
  method NormaliseLanguage(videofile: string, language: string, subinfolist: seq<SubInfo>, exts: seq<string>)
    returns (emitted: seq<SubtitleInfo>)
    ensures emitted == Pick(videofile, language, Flatten(subinfolist), exts, {})
  {
    emitted := [];
    var extSet: set<string> := {};
    for j := 0 to |subinfolist|
      invariant emitted + Pick(videofile, language, Flatten(subinfolist[j..]), exts, extSet)
        == Pick(videofile, language, Flatten(subinfolist), exts, {})
    {
      var files := subinfolist[j].files;
      assert Flatten(subinfolist[j..]) == files + Flatten(subinfolist[j + 1..]) by {
        assert subinfolist[j..][1..] == subinfolist[j + 1..];
      }
      ghost var later := Flatten(subinfolist[j + 1..]);
      for k := 0 to |files|
        invariant emitted + Pick(videofile, language, files[k..] + later, exts, extSet)
          == Pick(videofile, language, Flatten(subinfolist), exts, {})
      {
        var item := files[k];
        var ext := Lower(item.ext);
        var link := item.link;
        ghost var rest := files[k..] + later;
        assert rest[0] == item && rest[1..] == files[k + 1..] + later;
        if ext in exts && ext !in extSet {
          var d := Descriptor(videofile, language, ext, link);
          assert Pick(videofile, language, rest, exts, extSet)
            == [d] + Pick(videofile, language, rest[1..], exts, extSet + {ext});
          emitted := emitted + [d];
          extSet := extSet + {ext};
        }
      }
      assert files[|files|..] + later == later;
    }
    assert subinfolist[|subinfolist|..] == [];
  }

  /** The loop of search_subs that builds `subinfos`, one language at a time. */
  method Normalise(videofile: string, result: Responses, exts: seq<string>) returns (subinfos: seq<SubtitleInfo>)
    ensures subinfos == NormaliseAll(videofile, result, exts)
  {
    subinfos := [];
    for i := 0 to |result|
      invariant subinfos + NormaliseAll(videofile, result[i..], exts) == NormaliseAll(videofile, result, exts)
    {
      var (language, subinfolist) := result[i];
      assert result[i..][1..] == result[i + 1..];
      var emitted := NormaliseLanguage(videofile, language, subinfolist, exts);
      subinfos := subinfos + emitted;
    }
    assert result[|result|..] == [];
  }

  // ---------------------------------------------------------------------------------------------
  // What the normaliser guarantees

  /** The languages of the `result` dictionary, in iteration order. */
  function Languages(result: Responses): (r: seq<string>)
    ensures |r| == |result|
    ensures forall a | 0 <= a < |result| :: r[a] == result[a].0
  {
    seq(|result|, a requires 0 <= a < |result| => result[a].0)
  }

  /** Dictionary keys are distinct. */
  predicate DistinctKeys(result: Responses)
  {
    forall a, b | 0 <= a < b < |result| :: result[a].0 != result[b].0
  }

  /** The index of the first file entry whose extension lowers to `ext`. */
  function FirstWithExt(items: seq<FileItem>, ext: string): (r: Option<nat>)
    ensures r.Some? ==> r.value < |items| && Lower(items[r.value].ext) == ext
    ensures r.Some? ==> forall j | 0 <= j < r.value :: Lower(items[j].ext) != ext
    ensures r.None? ==> forall j | 0 <= j < |items| :: Lower(items[j].ext) != ext
  {
    if items == [] then None
    else if Lower(items[0].ext) == ext then Some(0)
    else
      match FirstWithExt(items[1..], ext)
      case None => None
      case Some(k) => Some(k + 1)
  }

  /** The descriptors of extension `ext`, in order. */
  function WithExt(ds: seq<SubtitleInfo>, ext: string): seq<SubtitleInfo>
  {
    if ds == [] then []
    else (if ds[0].ext == ext then [ds[0]] else []) + WithExt(ds[1..], ext)
  }

  /** The descriptors of language `language`, in order. */
  function WithLanguage(ds: seq<SubtitleInfo>, language: string): seq<SubtitleInfo>
  {
    if ds == [] then []
    else (if ds[0].language == language then [ds[0]] else []) + WithLanguage(ds[1..], language)
  }

  lemma {:induction false} WithExtAppend(a: seq<SubtitleInfo>, b: seq<SubtitleInfo>, ext: string)
    ensures WithExt(a + b, ext) == WithExt(a, ext) + WithExt(b, ext)
  {
    if a == [] {
      assert a + b == b;
    } else {
      assert (a + b)[1..] == a[1..] + b;
      WithExtAppend(a[1..], b, ext);
    }
  }

  lemma {:induction false} WithLanguageAppend(a: seq<SubtitleInfo>, b: seq<SubtitleInfo>, language: string)
    ensures WithLanguage(a + b, language) == WithLanguage(a, language) + WithLanguage(b, language)
  {
    if a == [] {
      assert a + b == b;
    } else {
      assert (a + b)[1..] == a[1..] + b;
      WithLanguageAppend(a[1..], b, language);
    }
  }

  /**
   * Every descriptor emitted for `language` names that language, a requested extension not
   * emitted before, in lower case, with the subtitle name _gen_subname gives it.
   */
  lemma {:induction false} PickValid(videofile: string, language: string, items: seq<FileItem>, exts: seq<string>, extSet: set<string>)
    ensures forall d | d in Pick(videofile, language, items, exts, extSet) ::
      && d.language == language
      && d.ext in exts
      && d.ext !in extSet
      && Lower(d.ext) == d.ext
      && d == Descriptor(videofile, language, d.ext, d.link)
  {
    if items != [] {
      var ext := Lower(items[0].ext);
      LowerIdempotent(items[0].ext);
      PickValid(videofile, language, items[1..], exts, extSet + {ext});
      PickValid(videofile, language, items[1..], exts, extSet);
    }
  }

  /**
   * The dedup law for one language: of the extension `ext`, the descriptors emitted are exactly
   * one, carrying the link of the first file entry whose extension lowers to `ext`, when `ext`
   * is requested, not yet emitted and present; and none otherwise.
   */
  lemma {:induction false} PickFirstWins(videofile: string, language: string, items: seq<FileItem>,
                                         exts: seq<string>, extSet: set<string>, ext: string)
    ensures WithExt(Pick(videofile, language, items, exts, extSet), ext) ==
      if ext in exts && ext !in extSet && FirstWithExt(items, ext).Some?
      then [Descriptor(videofile, language, ext, items[FirstWithExt(items, ext).value].link)]
      else []
  {
    if items != [] {
      var x := Lower(items[0].ext);
      var first := FirstWithExt(items, ext);
      var restFirst := FirstWithExt(items[1..], ext);
      assert x != ext ==> (first.Some? <==> restFirst.Some?);
      assert x != ext && first.Some? ==> items[first.value] == items[1..][restFirst.value];
      if x in exts && x !in extSet {
        var d := Descriptor(videofile, language, x, items[0].link);
        var rest := Pick(videofile, language, items[1..], exts, extSet + {x});
        WithExtAppend([d], rest, ext);
        PickFirstWins(videofile, language, items[1..], exts, extSet + {x}, ext);
      } else {
        PickFirstWins(videofile, language, items[1..], exts, extSet, ext);
      }
    }
  }

  /**
   * Every descriptor of the output comes from a queried language and names a requested,
   * lower-case extension, with the subtitle name _gen_subname gives it.
   */
  lemma {:induction false} NormaliseAllValid(videofile: string, result: Responses, exts: seq<string>)
    ensures forall d | d in NormaliseAll(videofile, result, exts) ::
      && d.language in Languages(result)
      && d.ext in exts
      && Lower(d.ext) == d.ext
      && d == Descriptor(videofile, d.language, d.ext, d.link)
  {
    if result != [] {
      PickValid(videofile, result[0].0, Flatten(result[0].1), exts, {});
      NormaliseAllValid(videofile, result[1..], exts);
      assert Languages(result) == [result[0].0] + Languages(result[1..]);
    }
  }

  /** Restricted to one language, the output is that language's own descriptors. */
  lemma {:induction false} NormaliseAllPerLanguage(videofile: string, result: Responses, exts: seq<string>, a: nat)
    requires DistinctKeys(result)
    requires a < |result|
    ensures WithLanguage(NormaliseAll(videofile, result, exts), result[a].0) ==
      Pick(videofile, result[a].0, Flatten(result[a].1), exts, {})
  {
    var head := Pick(videofile, result[0].0, Flatten(result[0].1), exts, {});
    var tail := NormaliseAll(videofile, result[1..], exts);
    WithLanguageAppend(head, tail, result[a].0);
    PickValid(videofile, result[0].0, Flatten(result[0].1), exts, {});
    if a == 0 {
      WithLanguageAll(head, result[0].0);
      NormaliseAllValid(videofile, result[1..], exts);
      WithLanguageNone(tail, result[0].0);
    } else {
      WithLanguageNone(head, result[a].0);
      NormaliseAllPerLanguage(videofile, result[1..], exts, a - 1);
    }
  }

  lemma {:induction false} WithLanguageAll(ds: seq<SubtitleInfo>, language: string)
    requires forall d | d in ds :: d.language == language
    ensures WithLanguage(ds, language) == ds
  {
    if ds != [] {
      WithLanguageAll(ds[1..], language);
    }
  }

  lemma {:induction false} WithLanguageNone(ds: seq<SubtitleInfo>, language: string)
    requires forall d | d in ds :: d.language != language
    ensures WithLanguage(ds, language) == []
  {
    if ds != [] {
      WithLanguageNone(ds[1..], language);
    }
  }

  /**
   * The dedup law for the whole output: for a queried language and an extension, the output holds
   * exactly one descriptor when the extension is requested and some file entry of that language
   * has it, the first such entry in response order supplying the link; otherwise none.
   */
  lemma {:induction false} NormaliseFirstWins(videofile: string, result: Responses, exts: seq<string>, a: nat, ext: string)
    requires DistinctKeys(result)
    requires a < |result|
    ensures
      var items := Flatten(result[a].1);
      WithExt(WithLanguage(NormaliseAll(videofile, result, exts), result[a].0), ext) ==
        if ext in exts && FirstWithExt(items, ext).Some?
        then [Descriptor(videofile, result[a].0, ext, items[FirstWithExt(items, ext).value].link)]
        else []
  {
    NormaliseAllPerLanguage(videofile, result, exts, a);
    PickFirstWins(videofile, result[a].0, Flatten(result[a].1), exts, {}, ext);
  }

  /** Grouping, for one pair of positions of the output. */
  lemma {:induction false} GroupedAt(videofile: string, result: Responses, exts: seq<string>, p: nat, q: nat, a: nat, b: nat)
    requires DistinctKeys(result)
    requires p < q < |NormaliseAll(videofile, result, exts)| && a < |result| && b < |result|
    requires NormaliseAll(videofile, result, exts)[p].language == result[a].0
    requires NormaliseAll(videofile, result, exts)[q].language == result[b].0
    ensures a <= b
  {
    var head := Pick(videofile, result[0].0, Flatten(result[0].1), exts, {});
    var tail := NormaliseAll(videofile, result[1..], exts);
    var out := head + tail;
    PickValid(videofile, result[0].0, Flatten(result[0].1), exts, {});
    if p < |head| {
      assert out[p] in head;
    } else {
      assert out[p] == tail[p - |head|] && out[q] == tail[q - |head|];
      assert tail[p - |head|] in tail && tail[q - |head|] in tail;
      NormaliseAllValid(videofile, result[1..], exts);
      var a' :| 0 <= a' < |result| - 1 && Languages(result[1..])[a'] == out[p].language;
      var b' :| 0 <= b' < |result| - 1 && Languages(result[1..])[b'] == out[q].language;
      assert result[1..][a'].0 == result[a' + 1].0;
      assert result[1..][b'].0 == result[b' + 1].0;
      assert a == a' + 1 && b == b' + 1;
      GroupedAt(videofile, result[1..], exts, p - |head|, q - |head|, a', b');
    }
  }

  /**
   * The output is grouped by language in dictionary order: a descriptor never follows one of a
   * language that comes later in the dictionary.
   */
  lemma NormaliseAllGrouped(videofile: string, result: Responses, exts: seq<string>)
    requires DistinctKeys(result)
    ensures var out := NormaliseAll(videofile, result, exts);
      forall p, q, a, b |
        && 0 <= p < q < |out| && 0 <= a < |result| && 0 <= b < |result|
        && out[p].language == result[a].0 && out[q].language == result[b].0
        :: a <= b
  {
    var out := NormaliseAll(videofile, result, exts);
    forall p, q, a, b |
      && 0 <= p < q < |out| && 0 <= a < |result| && 0 <= b < |result|
      && out[p].language == result[a].0 && out[q].language == result[b].0
      ensures a <= b
    {
      GroupedAt(videofile, result, exts, p, q, a, b);
    }
  }
}

=== FILE: posix_path.dfy ===
/**
 * The POSIX path helpers the core relies on (os.path.split, os.path.splitext, os.path.join
 * with two arguments) and the subtitle file name built from them (_gen_subname).
 */
module PosixPath {

  const SEP: char := '/'
  const EXTSEP: char := '.'

  /** Index of the last occurrence of `c` in `s`, or -1 (str.rfind). */
  function RFind(s: string, c: char): (r: int)
    ensures -1 <= r < |s|
    ensures r >= 0 ==> s[r] == c
    ensures forall j | r < j < |s| :: s[j] != c
  {
    if s == [] then -1
    else if s[|s| - 1] == c then |s| - 1
    else RFind(s[..|s| - 1], c)
  }

  /** Every character of `s` is `c`. */
  predicate AllChar(s: string, c: char)
  {
    forall i | 0 <= i < |s| :: s[i] == c
  }

  /** str.rstrip(c): drops the trailing run of `c`. */
  function RStrip(s: string, c: char): (r: string)
    ensures r <= s
    ensures AllChar(s[|r|..], c)
    ensures r == [] || r[|r| - 1] != c
  {
    if s == [] || s[|s| - 1] != c then s
    else RStrip(s[..|s| - 1], c)
  }

  /**
   * os.path.split: the tail is what follows the last '/', the head what precedes it, with its
   * trailing slashes removed unless the head consists of slashes only.
   */
  function Split(p: string): (string, string)
  {
    var i := RFind(p, SEP) + 1;
    var head, tail := p[..i], p[i..];
    if head != [] && !AllChar(head, SEP) then (RStrip(head, SEP), tail) else (head, tail)
  }

  /** os.path.basename. */
  function Basename(p: string): string
  {
    Split(p).1
  }

  /**
   * os.path.splitext: the extension starts at the last '.' after the last '/', provided some
   * character between that '/' and the dot is not a dot (leading dots do not start an extension).
   */
  function SplitExt(p: string): (string, string)
  {
    var sepIndex := RFind(p, SEP);
    var dotIndex := RFind(p, EXTSEP);
    if dotIndex > sepIndex && !AllChar(p[sepIndex + 1..dotIndex], EXTSEP) then
      (p[..dotIndex], p[dotIndex..])
    else
      (p, "")
  }

  /** os.path.join with two components. */
  function Join(a: string, b: string): string
  {
    if |b| > 0 && b[0] == SEP then b
    else if a == [] || a[|a| - 1] == SEP then a + b
    else a + [SEP] + b
  }

  /** _gen_subname: `<dir>/<stem>.<language>.<ext>` next to the video. */
  function GenSubname(videofile: string, language: string, ext: string): string
  {
    var (root, basename) := Split(videofile);
    var (name, _) := SplitExt(basename);
    Join(root, name + [EXTSEP] + language + [EXTSEP] + ext)
  }

  /** The stem of a video's base name: the part _gen_subname keeps. */
  function Stem(videofile: string): string
  {
    SplitExt(Basename(videofile)).0
  }

  lemma {:induction false} SplitExtParts(p: string)
    ensures SplitExt(p).0 + SplitExt(p).1 == p
    ensures SplitExt(p).1 == [] || (SplitExt(p).1[0] == EXTSEP && SEP !in SplitExt(p).1)
    ensures SplitExt(p).1 == [] || EXTSEP !in SplitExt(p).1[1..]
  {
    var (root, ext) := SplitExt(p);
    if ext != [] {
      var sepIndex := RFind(p, SEP);
      var dotIndex := RFind(p, EXTSEP);
      assert ext == p[dotIndex..];
      forall j | 0 <= j < |ext| ensures ext[j] != SEP && (j > 0 ==> ext[j] != EXTSEP) {
        assert ext[j] == p[dotIndex + j];
      }
    }
  }

  /** The tail returned by Split holds no separator. */
  lemma {:induction false} SplitTailHasNoSep(p: string)
    ensures SEP !in Split(p).1
    ensures Split(p).0 == [] || Split(p).0[|Split(p).0| - 1] != SEP || AllChar(Split(p).0, SEP)
  {
    var i := RFind(p, SEP) + 1;
    var tail := p[i..];
    forall j | 0 <= j < |tail| ensures tail[j] != SEP {
      assert tail[j] == p[i + j];
    }
  }

  /**
   * os.path.join keeps the second component whole at the end. An absolute second component
   * replaces the first; otherwise the first component is kept whole at the front.
   */
  lemma JoinEnds(a: string, b: string)
    ensures |b| <= |Join(a, b)| && Join(a, b)[|Join(a, b)| - |b|..] == b
    ensures |b| > 0 && b[0] == SEP ==> Join(a, b) == b
    ensures !(|b| > 0 && b[0] == SEP) ==> |a| <= |Join(a, b)| && Join(a, b)[..|a|] == a
  {
  }

  /** RFind is pinned down by its contract: the occurrence of `c` after which no `c` follows. */
  lemma RFindAt(s: string, c: char, k: int)
    requires -1 <= k < |s|
    requires k >= 0 ==> s[k] == c
    requires forall j | k < j < |s| :: s[j] != c
    ensures RFind(s, c) == k
  {
  }

  /** Splitting a string that holds no separator leaves it whole, with an empty head. */
  lemma {:induction false} SplitNoSep(s: string)
    requires SEP !in s
    ensures Split(s) == ("", s)
  {
  }

  /** Splitting `dir/name` gives back `dir` and `name` when `dir` ends in a non-slash. */
  lemma {:induction false} SplitAfterSep(head: string, name: string)
    requires SEP !in name
    requires head != [] && head[|head| - 1] == SEP
    ensures RFind(head + name, SEP) == |head| - 1
  {
    var s := head + name;
    forall j | |head| <= j < |s| ensures s[j] != SEP {
      assert s[j] == name[j - |head|];
    }
    RFindAt(s, SEP, |head| - 1);
  }

  /**
   * Splitting the subtitle name gives back the video's directory and the new base name
   * `<stem>.<language>.<ext>`: the subtitle sits next to the video.
   */
  lemma {:induction false} SplitGenSubname(videofile: string, language: string, ext: string)
    requires SEP !in language && SEP !in ext
    ensures Split(GenSubname(videofile, language, ext)) ==
      (Split(videofile).0, Stem(videofile) + [EXTSEP] + language + [EXTSEP] + ext)
  {
    var (root, basename) := Split(videofile);
    var (stem, _) := SplitExt(basename);
    var sub := stem + [EXTSEP] + language + [EXTSEP] + ext;
    SplitTailHasNoSep(videofile);
    SplitExtParts(basename);
    assert SEP !in stem by {
      forall j | 0 <= j < |stem| ensures stem[j] != SEP {
        assert stem[j] == basename[j];
      }
    }
    assert SEP !in sub by {
      forall j | 0 <= j < |sub| ensures sub[j] != SEP {
        if j < |stem| { assert sub[j] == stem[j]; }
        else if j == |stem| { }
        else if j < |stem| + 1 + |language| { assert sub[j] == language[j - |stem| - 1]; }
        else if j == |stem| + 1 + |language| { }
        else { assert sub[j] == ext[j - |stem| - 2 - |language|]; }
      }
    }
    assert !(|sub| > 0 && sub[0] == SEP) by {
      if |sub| > 0 { assert sub[0] in sub; }
    }
    var joined := Join(root, sub);
    if root == [] {
      assert joined == sub;
      SplitNoSep(sub);
    } else if root[|root| - 1] == SEP {
      assert joined == root + sub;
      SplitAfterSep(root, sub);
      assert AllChar(root, SEP);
      assert joined[..|root|] == root;
      assert joined[|root|..] == sub;
    } else {
      var head := root + [SEP];
      assert joined == head + sub;
      SplitAfterSep(head, sub);
      assert joined[..|head|] == head;
      assert joined[|head|..] == sub;
      assert !AllChar(head, SEP) by {
        assert head[|root| - 1] == root[|root| - 1];
      }
      assert RStrip(head, SEP) == RStrip(root, SEP);
    }
  }

  /** Splitting `<dir>/<name>` gives `<dir>` and `<name>` when `<dir>` does not end in '/'. */
  lemma {:induction false} SplitDirName(dir: string, name: string)
    requires dir != [] && dir[|dir| - 1] != SEP
    requires SEP !in name
    ensures Split(dir + [SEP] + name) == (dir, name)
  {
    var head := dir + [SEP];
    var v := head + name;
    assert v == dir + [SEP] + name;
    SplitAfterSep(head, name);
    assert v[..|head|] == head && v[|head|..] == name;
    assert !AllChar(head, SEP) by { assert head[|dir| - 1] == dir[|dir| - 1]; }
    assert RStrip(head, SEP) == dir;
  }

  /** The extension of `<stem>.<x>` is `.<x>` when `<stem>` is not made of dots only. */
  lemma {:induction false} SplitExtStem(stem: string, x: string)
    requires SEP !in stem && !AllChar(stem, EXTSEP)
    requires SEP !in x && EXTSEP !in x
    ensures SEP !in stem + [EXTSEP] + x
    ensures SplitExt(stem + [EXTSEP] + x).0 == stem
  {
    var basename := stem + [EXTSEP] + x;
    forall j | 0 <= j < |basename| ensures basename[j] != SEP && (j > |stem| ==> basename[j] != EXTSEP) {
      if j < |stem| { assert basename[j] == stem[j]; }
      else if j > |stem| { assert basename[j] == x[j - |stem| - 1]; }
    }
    RFindAt(basename, SEP, -1);
    RFindAt(basename, EXTSEP, |stem|);
    assert basename[0..|stem|] == stem && basename[..|stem|] == stem;
  }

  /** The subtitle of `<dir>/<stem>.<x>` is `<dir>/<stem>.<language>.<ext>`. */
  lemma {:induction false} GenSubnameOf(dir: string, stem: string, x: string, language: string, ext: string)
    requires dir != [] && dir[|dir| - 1] != SEP
    requires SEP !in stem && !AllChar(stem, EXTSEP)
    requires SEP !in x && EXTSEP !in x
    ensures GenSubname(dir + [SEP] + stem + [EXTSEP] + x, language, ext) ==
      dir + [SEP] + stem + [EXTSEP] + language + [EXTSEP] + ext
  {
    var basename := stem + [EXTSEP] + x;
    SplitExtStem(stem, x);
    assert dir + [SEP] + stem + [EXTSEP] + x == dir + [SEP] + basename;
    SplitDirName(dir, basename);
    var sub := stem + [EXTSEP] + language + [EXTSEP] + ext;
    assert sub[0] != SEP by { assert sub[0] == stem[0]; }
    assert dir + [SEP] + sub == dir + [SEP] + stem + [EXTSEP] + language + [EXTSEP] + ext;
  }

  /**
   * The known limitation of _gen_subname: two videos in one directory that share a stem get the
   * same subtitle name, whatever their own extensions, so their subtitles overwrite each other.
   */
  lemma {:induction false} SubnameCollision(dir: string, stem: string, x1: string, x2: string, language: string, ext: string)
    requires dir != [] && dir[|dir| - 1] != SEP
    requires SEP !in stem && !AllChar(stem, EXTSEP)
    requires SEP !in x1 && EXTSEP !in x1 && SEP !in x2 && EXTSEP !in x2
    ensures GenSubname(dir + [SEP] + stem + [EXTSEP] + x1, language, ext) ==
            GenSubname(dir + [SEP] + stem + [EXTSEP] + x2, language, ext)
  {
    GenSubnameOf(dir, stem, x1, language, ext);
    GenSubnameOf(dir, stem, x2, language, ext);
  }
}

=== FILE: providers.dfy ===
/**
 * Provider classes and the capability checks of BaseSubSearcher.
 *
 * A provider class is a value: its `__name__`, the names of its ancestors, and the two
 * capability lists SUPPORT_LANGUAGES and SUPPORT_EXTS it declares.
 */
module Providers {
  import opened Wrappers
  import opened Exceptions

  datatype ProviderClass = ProviderClass(
    name: string,
    ancestors: seq<string>,
    supportLanguages: seq<string>,
    supportExts: seq<string>)

  const BASE_NAME: string := "BaseSubSearcher"

  /** BaseSubSearcher itself: empty capability lists. */
  const BASE_SUB_SEARCHER: ProviderClass := ProviderClass(BASE_NAME, ["object"], [], [])

  /** ShooterSubSearcher, the reference provider. */
  const SHOOTER_SUB_SEARCHER: ProviderClass :=
    ProviderClass("ShooterSubSearcher", [BASE_NAME, "object"], ["Chn", "Eng"], ["ass", "srt"])

  /** issubclass(cls, BaseSubSearcher): a class is a subclass of itself and of its ancestors. */
  predicate IsSubSearcher(cls: ProviderClass)
  {
    cls.name == BASE_NAME || BASE_NAME in cls.ancestors
  }

  /** Every item occurs in the supported list. */
  predicate AllSupported(items: seq<string>, supported: seq<string>)
  {
    forall i | 0 <= i < |items| :: items[i] in supported
  }

  /**
   * The loop shared by _check_languages and _check_exts: walk the items in order and stop at
   * the first one missing from the supported list.
   */
  function FirstUnsupported(items: seq<string>, supported: seq<string>): (r: Option<nat>)
    ensures r.None? <==> AllSupported(items, supported)
    ensures r.Some? ==> r.value < |items| && items[r.value] !in supported
    ensures r.Some? ==> AllSupported(items[..r.value], supported)
  {
    if items == [] then None
    else if items[0] !in supported then Some(0)
    else
      match FirstUnsupported(items[1..], supported)
      case None => None
      case Some(k) =>
        assert items[1..][..k] == items[1..k + 1];
        Some(k + 1)
  }

  /** _check_languages: raises LanguageError for the first language the class does not support. */
  function CheckLanguages(cls: ProviderClass, languages: seq<string>): (r: Outcome<Error>)
    ensures r.Pass? <==> AllSupported(languages, cls.supportLanguages)
    ensures r.Fail? ==>
      exists k | 0 <= k < |languages| ::
        && languages[k] !in cls.supportLanguages
        && AllSupported(languages[..k], cls.supportLanguages)
        && r.error == LanguageError(cls.name, languages[k])
  {
    match FirstUnsupported(languages, cls.supportLanguages)
    case None => Pass
    case Some(k) => Fail(LanguageError(cls.name, languages[k]))
  }

  /** _check_exts: raises ExtError for the first extension the class does not support. */
  function CheckExts(cls: ProviderClass, exts: seq<string>): (r: Outcome<Error>)
    ensures r.Pass? <==> AllSupported(exts, cls.supportExts)
    ensures r.Fail? ==>
      exists k | 0 <= k < |exts| ::
        && exts[k] !in cls.supportExts
        && AllSupported(exts[..k], cls.supportExts)
        && r.error == ExtError(cls.name, exts[k])
  {
    match FirstUnsupported(exts, cls.supportExts)
    case None => Pass
    case Some(k) => Fail(ExtError(cls.name, exts[k]))
  }

  /**
   * The subclass test on the classes at hand: BaseSubSearcher passes (a class is a subclass of
   * itself), ShooterSubSearcher passes, and a class outside the hierarchy fails.
   */
  lemma SubclassTest(name: string)
    requires name != BASE_NAME
    ensures IsSubSearcher(BASE_SUB_SEARCHER)
    ensures IsSubSearcher(SHOOTER_SUB_SEARCHER)
    ensures !IsSubSearcher(ProviderClass(name, ["object"], [], []))
  {
  }
}

=== FILE: registry.dfy ===
/**
 * The process-wide provider registry: `registered_subsearchers`, a dictionary from a name to a
 * provider class that registration updates in place.
 */
module Registry {
  import opened Wrappers
  import opened Exceptions
  import opened Providers

  class SubSearcherRegistry {
    /** The bindings of registered_subsearchers. */
    var entries: map<string, ProviderClass>

    /** The module starts with an empty registry. */
    constructor ()
      ensures entries == map[]
    {
      entries := map[];
    }

    /** get_subsearcher: the class bound to `name`, or the caller's default; never fails. */
    function GetSubSearcher(name: string, default: Option<ProviderClass>): (r: Option<ProviderClass>)
      reads this
      ensures name in entries ==> r == Some(entries[name])
      ensures name !in entries ==> r == default
    {
      if name in entries then Some(entries[name]) else default
    }

    /**
     * register_subsearcher: binds `name` to `cls`, replacing any earlier binding, and rejects a
     * class that is not a BaseSubSearcher without touching the registry.
     */
    method RegisterSubSearcher(name: string, cls: ProviderClass) returns (r: Outcome<Error>)
      modifies this
      ensures r.Pass? <==> IsSubSearcher(cls)
      ensures r.Fail? ==> r.error == NotSubSearcher(cls.name) && entries == old(entries)
      ensures r.Pass? ==> entries == old(entries)[name := cls]
      ensures r.Pass? ==> forall default :: GetSubSearcher(name, default) == Some(cls)
      ensures forall other | other != name ::
        (other in entries <==> other in old(entries)) &&
        (other in entries ==> entries[other] == old(entries)[other])
    {
      if !IsSubSearcher(cls) {
        return Fail(NotSubSearcher(cls.name));
      }
      entries := entries[name := cls];
      r := Pass;
    }

    /**
     * The `register` decorator, applied to a class: registers it under the given name, or under
     * its own class name when none is given, and hands the class back.
     */
    method Register(cls: ProviderClass, name: Option<string>) returns (r: Result<ProviderClass, Error>)
      modifies this
      ensures r.Success? <==> IsSubSearcher(cls)
      ensures r.Success? ==> r.value == cls
      ensures r.Failure? ==> r.error == NotSubSearcher(cls.name) && entries == old(entries)
      ensures r.Success? ==>
        entries == old(entries)[(if name.Some? then name.value else cls.name) := cls]
    {
      var key := if name.None? then cls.name else name.value;
      var outcome := RegisterSubSearcher(key, cls);
      if outcome.Fail? {
        return Failure(outcome.error);
      }
      r := Success(cls);
    }

    /**
     * The definition of ShooterSubSearcher with its two decorators: the inner
     * `register(name='default')` runs first, then the bare `register`.
     */
    method DefineShooterSubSearcher()
      modifies this
      ensures entries == old(entries)["default" := SHOOTER_SUB_SEARCHER]["ShooterSubSearcher" := SHOOTER_SUB_SEARCHER]
      ensures GetSubSearcher("default", None) == Some(SHOOTER_SUB_SEARCHER)
      ensures GetSubSearcher("ShooterSubSearcher", None) == Some(SHOOTER_SUB_SEARCHER)
    {
      var asDefault := Register(SHOOTER_SUB_SEARCHER, Some("default"));
      var asOwnName := Register(SHOOTER_SUB_SEARCHER, None);
    }
  }
}

=== FILE: shooter.dfy ===
/**
 * ShooterSubSearcher.search_subs: normalise and validate the arguments, fingerprint the video,
 * post one query per language, and normalise the decoded responses into descriptors.
 *
 * The HTTP session is the `query` parameter: it maps the form fields posted for one language
 * to the decoded response list, or to the text of the exception the post or the decoding raised.
 */
module Shooter {
  import opened Wrappers
  import opened Exceptions
  import opened Providers
  import PosixPath
  import Fingerprint
  import opened Normaliser

  const API_URL: string := "https://www.shooter.cn/api/subapi.php"

  /** One post: the target URL and the form fields sent for one language. */
  datatype Request = Request(url: string, filehash: string, pathinfo: string, format: string, lang: string)

  /** A `languages` or `exts` argument: None, a lone string, or a list of strings. */
  datatype Arg = Absent | Single(item: string) | Several(items: seq<string>)

  /** None becomes the default, a lone string a one-element list. */
  function AsList(arg: Arg, default: seq<string>): seq<string>
  {
    match arg
    case Absent => default
    case Single(item) => [item]
    case Several(items) => items
  }

  /** The languages searched: by default the first supported one, 'Chn'. */
  function RequestedLanguages(languages: Arg): seq<string>
  {
    AsList(languages, [SHOOTER_SUB_SEARCHER.supportLanguages[0]])
  }

  /** The extensions searched: by default every supported one. */
  function RequestedExts(exts: Arg): seq<string>
  {
    AsList(exts, SHOOTER_SUB_SEARCHER.supportExts)
  }

  /** The post made for `language`: API_URL with the payload whose 'lang' is `language`. */
  function RequestFor(filehash: string, basename: string, language: string): Request
  {
    Request(API_URL, filehash, basename, "json", language)
  }

  /** The position of `language` among the keys, or |result| when it is absent. */
  function KeyIndex(result: Responses, language: string): (k: nat)
    ensures k <= |result|
    ensures k < |result| ==> result[k].0 == language
    ensures forall j | 0 <= j < k :: result[j].0 != language
  {
    if result == [] then 0
    else if result[0].0 == language then 0
    else KeyIndex(result[1..], language) + 1
  }

  /**
   * `result[language] = value` on the insertion-ordered dictionary: a new key goes last, an
   * existing key keeps its place and takes the new value.
   */
  function Put(result: Responses, language: string, value: seq<SubInfo>): (r: Responses)
    ensures |r| == if language in Languages(result) then |result| else |result| + 1
    ensures forall a | 0 <= a < |result| :: r[a].0 == result[a].0
    ensures |r| == |result| + 1 ==> r[|result|] == (language, value)
    ensures DistinctKeys(result) ==>
      forall a | 0 <= a < |r| :: r[a].1 == if r[a].0 == language then value else result[a].1
  {
    var k := KeyIndex(result, language);
    if k < |result| then
      assert language in Languages(result) by { assert Languages(result)[k] == language; }
      result[k := (language, value)]
    else
      result + [(language, value)]
  }

  /** The keys after the assignment: the old ones and `language`. */
  lemma PutKeys(result: Responses, language: string, value: seq<SubInfo>)
    ensures forall key :: key in Languages(Put(result, language, value)) <==> key in Languages(result) || key == language
  {
    var r := Put(result, language, value);
    forall key ensures key in Languages(r) <==> key in Languages(result) || key == language {
      if key in Languages(r) {
        var a :| 0 <= a < |r| && Languages(r)[a] == key;
        if a < |result| { assert Languages(result)[a] == key; }
      }
      if key in Languages(result) {
        var a :| 0 <= a < |result| && Languages(result)[a] == key;
        assert Languages(r)[a] == key;
      }
      if key == language && key !in Languages(result) {
        assert Languages(r)[|result|] == key;
      }
    }
  }

  /** Keys stay distinct: a key already present is updated where it stands. */
  lemma PutDistinct(result: Responses, language: string, value: seq<SubInfo>)
    requires DistinctKeys(result)
    ensures DistinctKeys(Put(result, language, value))
  {
    var r := Put(result, language, value);
    forall a, b | 0 <= a < b < |r| ensures r[a].0 != r[b].0 {
      if b == |result| {
        assert Languages(result)[a] == result[a].0;
      }
    }
  }

  /**
   * The query loop as a function: starting from the dictionary `result`, post the languages in
   * order; the first failure aborts everything.
   */
  function Queries(filehash: string, basename: string, languages: seq<string>,
                   query: Request -> Result<seq<SubInfo>, string>, result: Responses): Result<Responses, Error>
  {
    if languages == [] then Success(result)
    else
      match query(RequestFor(filehash, basename, languages[0]))
      case Failure(cause) => Failure(SearchingSubinfoError(cause))
      case Success(value) => Queries(filehash, basename, languages[1..], query, Put(result, languages[0], value))
  }

  /**
   * The query loop of search_subs. `sent` lists the requests posted, in order: the prefix of the
   * languages up to and including the first that fails.
   */
  method QueryAll(filehash: string, basename: string, languages: seq<string>,
                  query: Request -> Result<seq<SubInfo>, string>)
    returns (r: Result<Responses, Error>, sent: seq<Request>)
    ensures r == Queries(filehash, basename, languages, query, [])
    ensures |sent| <= |languages|
    ensures forall i | 0 <= i < |sent| :: sent[i] == RequestFor(filehash, basename, languages[i])
    ensures r.Success? ==> |sent| == |languages|
    ensures forall i | 0 <= i < |sent| :: query(sent[i]).Success? <==> (r.Success? || i < |sent| - 1)
    ensures r.Failure? ==> |sent| > 0 && r.error == SearchingSubinfoError(query(sent[|sent| - 1]).error)
  {
    var result: Responses := [];
    sent := [];
    for i := 0 to |languages|
      invariant |sent| == i
      invariant forall j | 0 <= j < i :: sent[j] == RequestFor(filehash, basename, languages[j])
      invariant forall j | 0 <= j < i :: query(sent[j]).Success?
      invariant Queries(filehash, basename, languages[i..], query, result) == Queries(filehash, basename, languages, query, [])
    {
      var request := RequestFor(filehash, basename, languages[i]);
      sent := sent + [request];
      var res := query(request);
      assert languages[i..][1..] == languages[i + 1..];
      if res.Failure? {
        return Failure(SearchingSubinfoError(res.error)), sent;
      }
      result := Put(result, languages[i], res.value);
    }
    assert languages[|languages|..] == [];
    r := Success(result);
  }

  /** search_subs as a function of its arguments, the file bytes, MD5 and the remote service. */
  function Search(videofile: string, languages: Arg, exts: Arg, file: seq<Fingerprint.byte>,
                  digest: seq<Fingerprint.byte> -> Fingerprint.HexDigest,
                  query: Request -> Result<seq<SubInfo>, string>): Result<seq<SubtitleInfo>, Error>
  {
    var langs := RequestedLanguages(languages);
    var extList := RequestedExts(exts);
    var languagesChecked := CheckLanguages(SHOOTER_SUB_SEARCHER, langs);
    if languagesChecked.Fail? then Failure(languagesChecked.error)
    else
      var extsChecked := CheckExts(SHOOTER_SUB_SEARCHER, extList);
      if extsChecked.Fail? then Failure(extsChecked.error)
      else
        var filehash := Fingerprint.VideoHash(videofile, file, digest);
        if filehash.Failure? then Failure(filehash.error)
        else
          var result := Queries(filehash.value, PosixPath.Basename(videofile), langs, query, []);
          if result.Failure? then Failure(result.error)
          else Success(NormaliseAll(videofile, result.value, extList))
  }

  /**
   * ShooterSubSearcher.search_subs. No request is posted when an argument is rejected or the file
   * is too small; otherwise the requests carry the fingerprint and the video's base name.
   */
  method SearchSubs(videofile: string, languages: Arg, exts: Arg, file: seq<Fingerprint.byte>,
                    digest: seq<Fingerprint.byte> -> Fingerprint.HexDigest,
                    query: Request -> Result<seq<SubInfo>, string>)
    returns (r: Result<seq<SubtitleInfo>, Error>, sent: seq<Request>)
    ensures r == Search(videofile, languages, exts, file, digest, query)
    ensures !AllSupported(RequestedLanguages(languages), SHOOTER_SUB_SEARCHER.supportLanguages) ==> sent == []
    ensures !AllSupported(RequestedExts(exts), SHOOTER_SUB_SEARCHER.supportExts) ==> sent == []
    ensures |file| < Fingerprint.MIN_SIZE ==> sent == []
    ensures |sent| <= |RequestedLanguages(languages)|
    ensures sent != [] ==> forall i | 0 <= i < |sent| ::
      sent[i] == RequestFor(Fingerprint.VideoHash(videofile, file, digest).value,
                            PosixPath.Basename(videofile), RequestedLanguages(languages)[i])
    ensures r.Success? ==> |sent| == |RequestedLanguages(languages)|
  {
    sent := [];
    var langs := RequestedLanguages(languages);
    var languagesChecked := CheckLanguages(SHOOTER_SUB_SEARCHER, langs);
    if languagesChecked.Fail? {
      return Failure(languagesChecked.error), sent;
    }
    var extList := RequestedExts(exts);
    var extsChecked := CheckExts(SHOOTER_SUB_SEARCHER, extList);
    if extsChecked.Fail? {
      return Failure(extsChecked.error), sent;
    }
    var filehash := Fingerprint.ComputeVideoHash(videofile, file, digest);
    if filehash.Failure? {
      return Failure(filehash.error), sent;
    }
    var (root, basename) := PosixPath.Split(videofile);
    var result;
    result, sent := QueryAll(filehash.value, basename, langs, query);
    if result.Failure? {
      return Failure(result.error), sent;
    }
    var subinfos := Normalise(videofile, result.value, extList);
    r := Success(subinfos);
  }

  // ---------------------------------------------------------------------------------------------
  // What search_subs guarantees

  /** Each entry of the dictionary holds the decoded answer to its own language's request. */
  predicate Answered(result: Responses, filehash: string, basename: string,
                     query: Request -> Result<seq<SubInfo>, string>)
  {
    forall a | 0 <= a < |result| :: query(RequestFor(filehash, basename, result[a].0)) == Success(result[a].1)
  }

  /** Putting a language's own answer keeps every entry answered. */
  lemma PutAnswered(result: Responses, filehash: string, basename: string,
                    query: Request -> Result<seq<SubInfo>, string>, language: string, value: seq<SubInfo>)
    requires DistinctKeys(result) && Answered(result, filehash, basename, query)
    requires query(RequestFor(filehash, basename, language)) == Success(value)
    ensures Answered(Put(result, language, value), filehash, basename, query)
  {
  }

  /** The query loop succeeds exactly when every language's request succeeds. */
  lemma {:induction false} QueriesSucceed(filehash: string, basename: string, languages: seq<string>,
                                          query: Request -> Result<seq<SubInfo>, string>, acc: Responses)
    ensures Queries(filehash, basename, languages, query, acc).Success? <==>
      forall i | 0 <= i < |languages| :: query(RequestFor(filehash, basename, languages[i])).Success?
  {
    if languages != [] {
      var answer := query(RequestFor(filehash, basename, languages[0]));
      if answer.Success? {
        QueriesSucceed(filehash, basename, languages[1..], query, Put(acc, languages[0], answer.value));
        forall i | 1 <= i < |languages| ensures languages[i] == languages[1..][i - 1] { }
      }
    }
  }

  /**
   * A successful query loop builds a dictionary with one entry per distinct language, each
   * holding that language's answer.
   */
  lemma {:induction false} QueriesBuild(filehash: string, basename: string, languages: seq<string>,
                                        query: Request -> Result<seq<SubInfo>, string>, acc: Responses)
    requires DistinctKeys(acc) && Answered(acc, filehash, basename, query)
    requires Queries(filehash, basename, languages, query, acc).Success?
    ensures var result := Queries(filehash, basename, languages, query, acc).value;
      && DistinctKeys(result)
      && Answered(result, filehash, basename, query)
      && forall language :: language in Languages(result) <==> language in Languages(acc) || language in languages
  {
    if languages != [] {
      var answer := query(RequestFor(filehash, basename, languages[0]));
      var next := Put(acc, languages[0], answer.value);
      PutAnswered(acc, filehash, basename, query, languages[0], answer.value);
      PutDistinct(acc, languages[0], answer.value);
      PutKeys(acc, languages[0], answer.value);
      QueriesBuild(filehash, basename, languages[1..], query, next);
      assert languages == [languages[0]] + languages[1..];
    }
  }

  /** A failed query loop reports the cause of the first failing request. */
  lemma {:induction false} QueriesFail(filehash: string, basename: string, languages: seq<string>,
                                       query: Request -> Result<seq<SubInfo>, string>, acc: Responses)
    requires Queries(filehash, basename, languages, query, acc).Failure?
    ensures exists k | 0 <= k < |languages| ::
      && query(RequestFor(filehash, basename, languages[k])).Failure?
      && (forall j | 0 <= j < k :: query(RequestFor(filehash, basename, languages[j])).Success?)
      && Queries(filehash, basename, languages, query, acc).error ==
           SearchingSubinfoError(query(RequestFor(filehash, basename, languages[k])).error)
  {
    var answer := query(RequestFor(filehash, basename, languages[0]));
    if answer.Success? {
      var next := Put(acc, languages[0], answer.value);
      QueriesFail(filehash, basename, languages[1..], query, next);
      var k :| && 0 <= k < |languages| - 1
        && query(RequestFor(filehash, basename, languages[1..][k])).Failure?
        && (forall j | 0 <= j < k :: query(RequestFor(filehash, basename, languages[1..][j])).Success?)
        && Queries(filehash, basename, languages[1..], query, next).error ==
             SearchingSubinfoError(query(RequestFor(filehash, basename, languages[1..][k])).error);
      assert languages[k + 1] == languages[1..][k];
      forall j | 0 <= j < k + 1 ensures query(RequestFor(filehash, basename, languages[j])).Success? {
        if j > 0 { assert languages[j] == languages[1..][j - 1]; }
      }
    }
  }

  /**
   * The capability invariant: every descriptor search_subs returns names a requested and
   * supported language and a requested and supported, lower-case extension, and carries the
   * subtitle name _gen_subname gives it.
   */
  lemma SearchWithinCapabilities(videofile: string, languages: Arg, exts: Arg, file: seq<Fingerprint.byte>,
                                 digest: seq<Fingerprint.byte> -> Fingerprint.HexDigest,
                                 query: Request -> Result<seq<SubInfo>, string>)
    ensures var r := Search(videofile, languages, exts, file, digest, query);
      r.Success? ==> forall d | d in r.value ::
        && d.language in RequestedLanguages(languages)
        && d.language in SHOOTER_SUB_SEARCHER.supportLanguages
        && d.ext in RequestedExts(exts)
        && d.ext in SHOOTER_SUB_SEARCHER.supportExts
        && Lower(d.ext) == d.ext
        && d.subname == PosixPath.GenSubname(videofile, d.language, d.ext)
  {
    var r := Search(videofile, languages, exts, file, digest, query);
    if r.Success? {
      var langs := RequestedLanguages(languages);
      var extList := RequestedExts(exts);
      var filehash := Fingerprint.VideoHash(videofile, file, digest).value;
      var basename := PosixPath.Basename(videofile);
      QueriesBuild(filehash, basename, langs, query, []);
      var result := Queries(filehash, basename, langs, query, []).value;
      NormaliseAllValid(videofile, result, extList);
      forall d | d in r.value
        ensures d.language in SHOOTER_SUB_SEARCHER.supportLanguages && d.ext in SHOOTER_SUB_SEARCHER.supportExts
      {
        var i :| 0 <= i < |langs| && langs[i] == d.language;
        var j :| 0 <= j < |extList| && extList[j] == d.ext;
      }
    }
  }

  /**
   * The dedup law end to end: for a requested language and an extension, a successful search
   * returns one descriptor when the extension is requested and the language's answer has a file
   * entry of it, linking to the first such entry in response order, and none otherwise.
   */
  lemma SearchFirstWins(videofile: string, languages: Arg, exts: Arg, file: seq<Fingerprint.byte>,
                        digest: seq<Fingerprint.byte> -> Fingerprint.HexDigest,
                        query: Request -> Result<seq<SubInfo>, string>, language: string, ext: string)
    requires Search(videofile, languages, exts, file, digest, query).Success?
    requires language in RequestedLanguages(languages)
    ensures
      var request := RequestFor(Fingerprint.VideoHash(videofile, file, digest).value, PosixPath.Basename(videofile), language);
      && query(request).Success?
      && var items := Flatten(query(request).value);
      WithExt(WithLanguage(Search(videofile, languages, exts, file, digest, query).value, language), ext) ==
        if ext in RequestedExts(exts) && FirstWithExt(items, ext).Some?
        then [Descriptor(videofile, language, ext, items[FirstWithExt(items, ext).value].link)]
        else []
  {
    var langs := RequestedLanguages(languages);
    var filehash := Fingerprint.VideoHash(videofile, file, digest).value;
    var basename := PosixPath.Basename(videofile);
    QueriesBuild(filehash, basename, langs, query, []);
    var result := Queries(filehash, basename, langs, query, []).value;
    assert language in Languages(result);
    var a :| 0 <= a < |result| && Languages(result)[a] == language;
    NormaliseFirstWins(videofile, result, RequestedExts(exts), a, ext);
  }

  /**
   * Validation comes first: a rejected language or extension fails the search the same way
   * whatever the file, MD5 or the remote service, and a rejected language is reported before
   * a rejected extension.
   */
  lemma ValidationPrecedesIO(videofile: string, languages: Arg, exts: Arg,
                             file1: seq<Fingerprint.byte>, digest1: seq<Fingerprint.byte> -> Fingerprint.HexDigest,
                             query1: Request -> Result<seq<SubInfo>, string>,
                             file2: seq<Fingerprint.byte>, digest2: seq<Fingerprint.byte> -> Fingerprint.HexDigest,
                             query2: Request -> Result<seq<SubInfo>, string>)
    requires !AllSupported(RequestedLanguages(languages), SHOOTER_SUB_SEARCHER.supportLanguages)
          || !AllSupported(RequestedExts(exts), SHOOTER_SUB_SEARCHER.supportExts)
    ensures Search(videofile, languages, exts, file1, digest1, query1) == Search(videofile, languages, exts, file2, digest2, query2)
    ensures Search(videofile, languages, exts, file1, digest1, query1).Failure?
    ensures !AllSupported(RequestedLanguages(languages), SHOOTER_SUB_SEARCHER.supportLanguages) ==>
      Search(videofile, languages, exts, file1, digest1, query1).error.LanguageError?
    ensures AllSupported(RequestedLanguages(languages), SHOOTER_SUB_SEARCHER.supportLanguages) ==>
      Search(videofile, languages, exts, file1, digest1, query1).error.ExtError?
  {
  }

  /** The argument defaults of search_subs: languages 'Chn', every supported extension. */
  lemma ArgumentDefaults(language: string, ext: string)
    ensures RequestedLanguages(Absent) == ["Chn"]
    ensures RequestedLanguages(Single(language)) == [language]
    ensures RequestedExts(Absent) == ["ass", "srt"]
    ensures RequestedExts(Single(ext)) == [ext]
  {
  }

  lemma EnglishScenarioLower()
    ensures Lower("SRT") == "srt" && Lower("ass") == "ass"
  {
    assert Lower("SRT")[0] == 's' && Lower("SRT")[1] == 'r' && Lower("SRT")[2] == 't';
  }

  lemma EnglishScenarioPick(videofile: string)
    ensures Pick(videofile, "Eng", [FileItem("SRT", "http://x/1"), FileItem("ass", "http://x/2")], ["ass", "srt"], {}) ==
      [Descriptor(videofile, "Eng", "srt", "http://x/1"), Descriptor(videofile, "Eng", "ass", "http://x/2")]
  {
    var files := [FileItem("SRT", "http://x/1"), FileItem("ass", "http://x/2")];
    var exts := ["ass", "srt"];
    var none: set<string> := {};
    EnglishScenarioLower();
    assert "srt" in exts && "srt" !in none;
    assert Pick(videofile, "Eng", files, exts, none) ==
      [Descriptor(videofile, "Eng", "srt", "http://x/1")] + Pick(videofile, "Eng", files[1..], exts, none + {"srt"});
    var seen := none + {"srt"};
    assert "ass" in exts && "ass" !in seen;
    assert files[1..][0] == FileItem("ass", "http://x/2");
    assert Pick(videofile, "Eng", files[1..], exts, seen) ==
      [Descriptor(videofile, "Eng", "ass", "http://x/2")] + Pick(videofile, "Eng", files[1..][1..], exts, seen + {"ass"});
    assert files[1..][1..] == [];
  }

  /** The normaliser's part of the worked search below. */
  lemma EnglishScenarioNormalised(videofile: string)
    ensures NormaliseAll(videofile, [("Eng", [SubInfo("x", 0, [FileItem("SRT", "http://x/1"), FileItem("ass", "http://x/2")])])], ["ass", "srt"]) ==
      [Descriptor(videofile, "Eng", "srt", "http://x/1"), Descriptor(videofile, "Eng", "ass", "http://x/2")]
  {
    var files := [FileItem("SRT", "http://x/1"), FileItem("ass", "http://x/2")];
    var answer := [SubInfo("x", 0, files)];
    assert Flatten(answer) == files by {
      assert answer[1..] == [];
      assert files + [] == files;
    }
    EnglishScenarioPick(videofile);
    assert [("Eng", answer)][1..] == [];
  }

  /**
   * A worked search: 'Eng' with the default extensions, one answer listing an "SRT" entry and
   * an "ass" entry, gives an 'srt' descriptor and then an 'ass' descriptor.
   */
  lemma EnglishScenario(videofile: string, file: seq<Fingerprint.byte>,
                        digest: seq<Fingerprint.byte> -> Fingerprint.HexDigest,
                        query: Request -> Result<seq<SubInfo>, string>)
    requires |file| == 20000
    requires forall request: Request | request.lang == "Eng" ::
      query(request) == Success([SubInfo("x", 0, [FileItem("SRT", "http://x/1"), FileItem("ass", "http://x/2")])])
    ensures Search(videofile, Single("Eng"), Absent, file, digest, query) ==
      Success([Descriptor(videofile, "Eng", "srt", "http://x/1"), Descriptor(videofile, "Eng", "ass", "http://x/2")])
  {
    var answer := [SubInfo("x", 0, [FileItem("SRT", "http://x/1"), FileItem("ass", "http://x/2")])];
    assert RequestedLanguages(Single("Eng")) == ["Eng"];
    assert RequestedExts(Absent) == ["ass", "srt"];
    assert CheckLanguages(SHOOTER_SUB_SEARCHER, ["Eng"]) == Pass;
    assert CheckExts(SHOOTER_SUB_SEARCHER, ["ass", "srt"]) == Pass;
    var filehash := Fingerprint.VideoHash(videofile, file, digest).value;
    var basename := PosixPath.Basename(videofile);
    assert query(RequestFor(filehash, basename, "Eng")) == Success(answer);
    assert Queries(filehash, basename, ["Eng"], query, []) == Success([("Eng", answer)]) by {
      assert Put([], "Eng", answer) == [("Eng", answer)] by {
        assert KeyIndex([], "Eng") == 0;
        assert [] + [("Eng", answer)] == [("Eng", answer)];
      }
      assert Queries(filehash, basename, ["Eng"], query, []) ==
        Queries(filehash, basename, ["Eng"][1..], query, Put([], "Eng", answer));
      assert ["Eng"][1..] == [];
    }
    EnglishScenarioNormalised(videofile);
  }
}

=== FILE: wrappers.dfy ===
/** Failure-carrying values: Python's exceptions become the Failure/Fail side of these. */
module Wrappers {

  datatype Option<+T> = None | Some(value: T)

  datatype Result<+R, +E> = Success(value: R) | Failure(error: E)

  /** The outcome of a check that either passes or raises. */
  datatype Outcome<+E> = Pass | Fail(error: E)
}
